=== FILE: README.md ===
# PingUp story viewer and feed helpers, modelled in Dafny

This project models the logic of the PingUp social-feed web client (a React
app) as pure Dafny functions over immutable datatypes, and proves properties
of them. The main part is the story player from `StoryViewer.jsx`. It shows
one author's stories full screen. An image advances on an animation-frame
timer and a video advances when it ends. Taps, presses and buttons navigate
or pause. The model also covers four smaller pieces:

- the like toggle and hashtag highlighting of a post (`PostCard.jsx`);
- the people search and follow toggle (`Discover.jsx`);
- the story composer's upload checks and submission (`StoryModal.jsx`);
- the sign-up password checks (`Signup.jsx`).

| file | module | models |
|---|---|---|
| `common.dfy` | `Common` | `Option`, and the order-preserving subsequence relation |
| `js_text.dfy` | `JsText` | JavaScript `trim`, `toLowerCase` (ASCII), `includes`, `length` in UTF-16 code units, `startsWith` |
| `story_viewer.dfy` | `StoryViewer` | the player: state, events, transitions, invariants, progress bars |
| `post_card.dfy` | `PostCard` | `handleLike`, the hashtag `replace` |
| `discover.dfy` | `Discover` | the trimmed query, `performSearch`, `toggleFollow` |
| `story_modal.dfy` | `StoryModal` | `handleMediaUpload`, `removeMedia`, `isStoryEmpty`, `handleCreateStory` up to the request |
| `signup.dfy` | `Signup` | `handleSubmit` up to the request |

## How the player is modelled

The player state is `Empty | Open(index, progress, paused, clock) | Closed`:

- `Empty` means the story list is empty. The component renders nothing and
  schedules nothing.
- `Closed` stands for the call `setViewStory(null)`. The parent then unmounts
  the player.
- `progress` is the source's percentage, from 0 to 100, as a `real`.
- `clock` is the requestAnimationFrame loop. `Stopped` means no frame is
  pending. `Running(start)` holds the first frame's timestamp, with `0.0`
  meaning "not yet recorded". The source tests `!startTime`, which treats
  `null` and `0` alike, so this encoding is exact.

The browser is a stream of events: `Tick(timestamp)`,
`TimeUpdate(currentTime, duration)`, `Ended`, `Tap(x, width)`, `PressStart`,
`PressEnd`, `Next`, `Previous` and `Close`. One `Step` applies a React state
update together with the effects it re-runs, and yields the settled state.
An index change always settles to `Enter(i) = Open(i, 0, false, Running(0))`:

- the reset effect zeroes the progress and clears the pause flag;
- the animation effect schedules a fresh frame.

Notable behaviour of the player:

- Releasing a hold re-runs the animation effect with a fresh `startTime`. The
  first frame after the release therefore shows progress 0: the image ramp
  restarts rather than continuing (`ResumeRestartsRamp`).
- An index change clears the pause flag. Going back while held leaves the
  player unpaused on the previous item (`RewindWhilePaused`).
- Holding does not pause a video. The video effect does not depend on the
  pause flag, so `timeupdate` and `ended` still act while held.
- A video whose duration is unknown keeps its current progress. That value
  is 0 right after the index change.
- The player holds a single author's list. Finishing the last item closes
  the player; nothing moves on to another author.
- An index past the end reads `stories[i] || {}`, which behaves as an image
  with the default duration (`StoryAt`).

## Model

| member | source | states |
|---|---|---|
| `StoryViewer.Start` | src/components/StoryViewer.jsx:6-31 | opening a non-empty list is exactly `Enter(0)`: item 0 with progress 0, not paused, and a frame pending whose start is not yet recorded, so the first frame records its own timestamp and shows 0; an empty list gives `Empty`; opening never closes |
| `StoryViewer.StartWellFormed` | src/components/StoryViewer.jsx:25 | the opening state is well-formed; with no stories every run of events stays `Empty`, so nothing is ever scheduled |
| `StoryViewer.StoryAt` | src/components/StoryViewer.jsx:13-15 | an index within the list reads that story; an index past the end reads an image with the default 5000 ms duration |
| `StoryViewer.EffectiveDuration` | src/components/StoryViewer.jsx:15-28 | an image's display time is always positive: its own `duration` when that is set, and the default of 5000 ms when it is missing |
| `StoryViewer.GoToNext` | src/components/StoryViewer.jsx:85-92 | on an open viewer it closes exactly when the current item is the last; otherwise the result is exactly `Enter(index+1)`: the next item with progress 0, not paused, a fresh frame pending |
| `StoryViewer.GoToPrevious` | src/components/StoryViewer.jsx:94-98 | a viewer that is not open is left as it is; an open one never closes; on item 0 it changes nothing; otherwise the result is exactly `Enter(index-1)`: the previous item with progress 0 and not paused |
| `StoryViewer.OnTick` | src/components/StoryViewer.jsx:30-47 | with no frame pending nothing happens; on a video the frame stops the loop; on an image, below the duration the progress becomes elapsed/duration·100 on the same run, and from the duration on the viewer does what `goToNext` does |
| `StoryViewer.OnTimeUpdate` | src/components/StoryViewer.jsx:61-66 | on a video with a known duration, progress·duration equals currentTime·100 and nothing else changes; otherwise nothing changes |
| `StoryViewer.OnTap` | src/components/StoryViewer.jsx:101-111 | left of the middle it moves back one item (or stays on item 0); from the middle on it closes exactly on the last item and otherwise is exactly `Enter(index+1)` |
| `StoryViewer.OnPressStart` | src/components/StoryViewer.jsx:114 | pressing an unpaused viewer pauses it and cancels the pending frame, keeping index and progress; pressing again changes nothing |
| `StoryViewer.OnPressEnd` | src/components/StoryViewer.jsx:115 | releasing a paused viewer unpauses it and schedules a fresh frame with no recorded start, keeping index and progress; otherwise nothing changes |
| `StoryViewer.Step` | src/components/StoryViewer.jsx:85-140 | a closed or empty viewer ignores every event; the close button closes; an open viewer otherwise closes only from the last item and never becomes empty; the index moves by at most one, and a moved index settles to `Enter` |
| `StoryViewer.StepHandlers` | src/components/StoryViewer.jsx:68-213 | on an open viewer every event reaches its handler: a frame is `animate`, a video notification is `handleTimeUpdate`, `ended` is `goToNext` while a video is shown and nothing on an image, a backdrop click is `handleTap`, a press and a release are `handlePauseStart` and `handlePauseEnd`, the right and left arrows are `goToNext` and `goToPrevious`, and the close button closes |
| `StoryViewer.StepWellFormed` | src/components/StoryViewer.jsx:85-115 | every event keeps the index within the story list while open; paused means no frame pending; unpaused on an image means a frame pending |
| `StoryViewer.RunWellFormed` | src/components/StoryViewer.jsx:85-98 | any sequence of events from a well-formed state keeps the viewer well-formed, so the index stays in bounds while open |
| `StoryViewer.RunFixesInactive` | src/components/StoryViewer.jsx:88-91 | once closed (or empty) no event has any effect |
| `StoryViewer.ResetOnIndexChange` | src/components/StoryViewer.jsx:18-21 | whenever an event changes the index, progress is 0, the pause flag is clear and a fresh frame is pending |
| `StoryViewer.ClosesOnlyAtEnd` | src/components/StoryViewer.jsx:85-92 | an event closes an open viewer only if it is the close button or the viewer is on the last item |
| `StoryViewer.TapZones` | src/components/StoryViewer.jsx:101-111 | a tap left of the middle acts as Previous; a tap at or right of the middle, the middle included, acts as Next; Previous never closes |
| `StoryViewer.ImageProgress` | src/components/StoryViewer.jsx:39 | below the duration the percentage is elapsed/duration·100; from the duration on it is 100, and only then; it never exceeds 100 and is non-negative for non-negative elapsed time |
| `StoryViewer.ImageProgressMonotone` | src/components/StoryViewer.jsx:30-39 | the image percentage never decreases as the elapsed time grows |
| `StoryViewer.StepProgressInRange` | src/components/StoryViewer.jsx:30-66 | for plausible frame timestamps and video positions, progress stays within [0, 100]; an unknown video duration never divides by zero |
| `StoryViewer.TicksNonDecreasing` | src/components/StoryViewer.jsx:27-46 | two successive frames of one run on the same item show non-decreasing progress |
| `StoryViewer.FrameSchedule` | src/components/StoryViewer.jsx:39-46 | for every frame of an unpaused image: below the duration the next state is the elapsed share of the duration with another frame on the same run; from the duration on it is exactly `goToNext` |
| `StoryViewer.PausedImageHolds` | src/components/StoryViewer.jsx:25 | while paused on an image, frames, video notifications and further presses leave the state, and so the progress, unchanged |
| `StoryViewer.ResumeRestartsRamp` | src/components/StoryViewer.jsx:27-32 | after a release on a paused image, the next frame shows progress 0 and starts a new run at its own timestamp |
| `StoryViewer.VideoProgress` | src/components/StoryViewer.jsx:61-70 | on a video, a position update with unknown duration changes nothing; with a known duration progress equals currentTime/duration·100; the index is unchanged; `ended` acts as Next |
| `StoryViewer.Bars` | src/components/StoryViewer.jsx:144-157 | one bar per story; the current bar shows the progress; each bar within [0, 100]; non-increasing left to right; a bar is full iff it precedes the current one (or is the current one at 100); empty iff it follows the current one (or is the current one at 0) |
| `StoryViewer.BarsAfterIndexChange` | src/components/StoryViewer.jsx:18-21 | right after moving to item i the bars show exactly the items before i as full and all others as empty |
| `StoryViewer.ThreeImagesPlayThrough` | src/components/StoryViewer.jsx:39-46 | three 5000 ms images played without interaction show 50% halfway, then visit items 1 and 2 from progress 0, then close |
| `StoryViewer.SingleVideoCloses` | src/components/StoryViewer.jsx:61-70 | for a single video, a frame stops the timer; an update without duration holds progress; position 10 of 10 shows 100%; `ended` closes |
| `StoryViewer.RewindWhilePaused` | src/components/StoryViewer.jsx:94-98 | held on item 1 of 3, going back shows item 0 from progress 0, unpaused, with a fresh frame pending |
| `PostCard.RemoveAll` | src/components/PostCard.jsx:17 | the result lacks the id; every other id keeps its multiplicity; the order is kept (an order-preserving subsequence); the length drops by the number of occurrences |
| `PostCard.ToggleLike` | src/components/PostCard.jsx:15-21 | "liked" flips; a like appends the id at the end (length +1, earlier ids unchanged); an unlike removes every occurrence and keeps the rest in order |
| `PostCard.RemoveAllAbsent` | src/components/PostCard.jsx:17 | filtering out an id that is absent returns the list unchanged |
| `PostCard.ToggleLikeTwice` | src/components/PostCard.jsx:15-21 | from a list without the user, like then unlike returns the original list |
| `PostCard.ToggleLikeTwicePresent` | src/components/PostCard.jsx:15-21 | from a list with the user, two toggles leave the other ids and the user once at the end |
| `PostCard.WordRun` | src/components/PostCard.jsx:8 | the greedy `\w+` takes word characters only and stops before the first non-word character |
| `PostCard.Highlight` | src/components/PostCard.jsx:7-10 | text without any `#` followed by a word character comes back unchanged; text with one grows by at least one pair of tags |
| `PostCard.HighlightWrapsHashtag` | src/components/PostCard.jsx:7-10 | `#` followed by a word that is not followed by another word character becomes the tag pair around `#` and the whole word, and the rest of the text is highlighted on its own |
| `PostCard.HighlightPlainPrefix` | src/components/PostCard.jsx:7-10 | text in which no hashtag starts is copied unchanged and highlighting continues after it, so markup is added only around hashtags |
| `PostCard.HighlightExample` | src/components/PostCard.jsx:7-10 | `"a #b"` becomes `"a "` followed by one tag pair around `#b` |
| `PostCard.HighlightRoundTrip` | src/components/PostCard.jsx:7-10 | highlighting loses nothing: removing the markup from highlighted text without `<` gives the original text |
| `Discover.FilterUsers` | src/pages/Discover.jsx:44-48 | the result is an order-preserving subsequence of the users; a user is in it iff the lower-cased query occurs in the lower-cased name or username; every matching user keeps its multiplicity and every other user has none |
| `Discover.PerformSearch` | src/pages/Discover.jsx:33-48 | an empty query gives no users; otherwise the result is exactly the matching users, with their multiplicities, in source order |
| `Discover.Search` | src/pages/Discover.jsx:22-57 | the typed text is trimmed first: only-white-space text finds nobody, and otherwise a user is found iff the trimmed text matches |
| `Discover.SearchTrimmed` | src/pages/Discover.jsx:24 | searching the typed text and searching its trimmed form give the same result |
| `Discover.SearchCaseInsensitive` | src/pages/Discover.jsx:46-47 | two queries that differ only in the case of ASCII letters find the same users |
| `Discover.ToggleFollow` | src/pages/Discover.jsx:59-66 | length and order are kept; ids, names and usernames are unchanged; `isFollowing` flips exactly for users with the given id |
| `Discover.ToggleFollowTwice` | src/pages/Discover.jsx:59-66 | toggling the same id twice restores the list |
| `StoryModal.InitialShareDisabled` | src/components/StoryModal.jsx:16-21 | the composer opens in text mode on the first colour with empty text, so the story is empty and Share is disabled |
| `StoryModal.CheckUpload` | src/components/StoryModal.jsx:25-40 | a file is accepted iff one is selected, its type is one of the six whitelisted types and its size is at most 25 MiB; the type check comes before the size check |
| `StoryModal.HandleMediaUpload` | src/components/StoryModal.jsx:25-45 | a rejected selection changes nothing; an accepted file becomes the media and switches to media mode; text, colour and the submitting flag are kept |
| `StoryModal.SizeBoundInclusive` | src/components/StoryModal.jsx:37-40 | a whitelisted file of exactly 26214400 bytes is accepted; one byte more is too large |
| `StoryModal.RemoveMedia` | src/components/StoryModal.jsx:47-54 | media is cleared and mode is text; text, colour and the submitting flag are kept |
| `StoryModal.UploadThenRemove` | src/components/StoryModal.jsx:42-54 | from a text story without media, uploading and then removing returns the same composer |
| `StoryModal.MediaStoryType` | src/components/StoryModal.jsx:76 | the media type field is video iff the MIME type starts with "video", and image otherwise |
| `StoryModal.IsStoryEmpty` | src/components/StoryModal.jsx:107 | a text story is empty iff its text is all white space; a media story is empty iff it has no file |
| `StoryModal.ShareEnabled` | src/components/StoryModal.jsx:211-213 | Share is enabled iff nothing is being submitted and the story has non-white-space text or, in media mode, a file |
| `StoryModal.CreateStory` | src/components/StoryModal.jsx:56-81 | it does nothing while submitting; otherwise it sends iff the story is not empty, and refuses blank text with the empty-text outcome and a media story without a file with the missing-media outcome; media mode sends the file with its type; text mode sends the trimmed, non-empty text and the colour |
| `StoryModal.AfterCreate` | src/components/StoryModal.jsx:69 | sending sets the submitting flag, which disables Share, and keeps mode, text, colour and media; a refused submission changes nothing |
| `StoryModal.ShareEnabledIffSent` | src/components/StoryModal.jsx:107 | Share is enabled exactly when pressing it sends a story |
| `StoryModal.AcceptedUploadType` | src/components/StoryModal.jsx:30-76 | an accepted upload, shared, is sent as media, and as a video exactly when its type is video/mp4 or video/webm |
| `Signup.Submit` | src/pages/Signup.jsx:17-35 | a request is made iff the passwords are equal and at least 6 UTF-16 code units long; its body is exactly name, email, password; a mismatch gets the mismatch message, otherwise a short password gets the length message |
| `Signup.MismatchTakesPrecedence` | src/pages/Signup.jsx:17-27 | a short password that also mismatches is reported as a mismatch |
| `Signup.LengthByCharacters` | src/pages/Signup.jsx:17-27 | matching passwords of 6 or more characters are always sent; matching passwords of fewer than 3 characters are always too short |
| `Signup.LengthInCodeUnits` | src/pages/Signup.jsx:23 | three emoji (six code units) are long enough; five ASCII characters are not |
| `JsText.TrimStart` | src/pages/Discover.jsx:24 | the result is a suffix of the input, all dropped characters are white space, and it does not start with white space |
| `JsText.TrimEnd` | src/pages/Discover.jsx:24 | the result is a prefix of the input, all dropped characters are white space, and it does not end with white space |
| `JsText.Trim` | src/components/StoryModal.jsx:60 | the result is a contiguous slice of the input with only white space before and after it; it is empty iff the input is all white space; otherwise it neither starts nor ends with white space |
| `JsText.TrimIdempotent` | src/pages/Discover.jsx:24 | trimming twice equals trimming once |
| `JsText.Lower` | src/pages/Discover.jsx:46-47 | lower-casing keeps the length; each ASCII capital becomes the matching small letter, 32 code points later; every other character is kept |
| `JsText.LowerIdempotent` | src/pages/Discover.jsx:46-47 | a lower-cased string has no ASCII capitals and is unchanged by lower-casing again |
| `JsText.LowerCaseInsensitive` | src/pages/Discover.jsx:46-47 | strings that differ only in the case of ASCII letters lower to the same string |
| `JsText.Includes` | src/pages/Discover.jsx:46-47 | `includes` is true exactly when the needle occurs at some position of the haystack |
| `JsText.Utf16Length` | src/pages/Signup.jsx:23 | the code-unit length is the character count plus the number of positions holding a character outside the Basic Multilingual Plane; so it lies between the count and twice it, and equals the count iff every character is in that plane |

## Left out

- Network requests are not modelled: the sign-up and story-creation `fetch`, their response handling, and the `finally` that clears `isSubmitting`. Their results are unknown I/O, so the model stops at the request.
- Browser APIs become events or are dropped. requestAnimationFrame and cancelAnimationFrame become `Tick` and the `Stopped` clock. The video element becomes `TimeUpdate` and `Ended`; its `play` and `pause` calls are dropped. `URL.createObjectURL` and `revokeObjectURL` (the preview URL) are dropped. `alert` messages become outcome values.
- The debounce timer, the artificial delay and the `loading` flag of the search are timing plumbing. The search is modelled as trimming followed by the filter.
- DOM event bubbling is not modelled. The close and arrow buttons sit inside the tap surface, so in a browser their click also reaches `handleTap`.
- A real click also delivers mouse-down and mouse-up before it. Those are separate `PressStart`/`PressEnd` events here; `Tap` alone is the click handler.
- The initial like list `post.likes_count || []` and the displayed count `likes.length` are direct field reads. The model starts from a given list; `ToggleLike`'s contract tracks its length.
- Post content that is absent (`post.content?.`) is not rendered, so it is not modelled.
- Presentation-only story fields are not modelled: url, caption, background tint, avatar and username. The static "Suggested People" list is also left out.
- The background colour picker is a plain assignment. The textarea's 280-character limit and the file input's `accept` filter are enforced by the browser, not by the handlers. (The `accept` filter omits image/gif, which the handler's whitelist allows.) Likewise the sign-up inputs are `required` and the e-mail input has `type="email"` (src/pages/Signup.jsx:161,172,176,191,206), so a browser never submits an empty field or a malformed address; `Submit` is modelled on every input, empty ones included.
- JsText.Lower: folds ASCII letters only. JavaScript's `toLowerCase` follows full Unicode case mapping; restricting to ASCII keeps the model finite and simple.
- StoryViewer.EffectiveDuration: a story's `duration` is a natural number of milliseconds. Negative or fractional durations are not representable. NaN and absent values are the falsy 0.
- StoryViewer.StepProgressInRange: the progress bound is proved only for plausible events. Frame timestamps must not precede the run's start, and a video's position must lie within its duration; the browser guarantees both.
- Numbers are Dafny `real`s, not IEEE doubles. Rounding, NaN and Infinity are not modelled. An unknown video duration (NaN) is represented by the falsy 0.0.
- Login, routing, auth guards, local storage, the feed, messages, connections and the sidebar are outside this model.

=== FILE: common.dfy ===
/** Small shared vocabulary: an optional value and the order-preserving
    subsequence relation used to state that filters keep the source order. */
module Common {

  /** A value that may be absent (a JavaScript `null` / `undefined`). */
  datatype Option<T> = None | Some(value: T)

  /** `a` is `b` with zero or more elements dropped, the rest kept in order. */
  ghost predicate IsSubseq<T>(a: seq<T>, b: seq<T>)
    decreases |b|
  {
    if |b| == 0 then |a| == 0
    else (|a| > 0 && a[0] == b[0] && IsSubseq(a[1..], b[1..])) || IsSubseq(a, b[1..])
  }

  /** The empty sequence is a subsequence of every sequence. */
  lemma {:induction false} SubseqEmpty<T>(b: seq<T>)
    ensures IsSubseq([], b)
    decreases |b|
  {
    if |b| > 0 {
      SubseqEmpty(b[1..]);
    }
  }

  /** Keeping the head of both sequences preserves the relation. */
  lemma SubseqKeep<T>(x: T, a: seq<T>, b: seq<T>)
    requires IsSubseq(a, b)
    ensures IsSubseq([x] + a, [x] + b)
  {
  }

  /** Dropping the head of the larger sequence preserves the relation. */
  lemma SubseqDrop<T>(x: T, a: seq<T>, b: seq<T>)
    requires IsSubseq(a, b)
    ensures IsSubseq(a, [x] + b)
  {
  }
}

=== FILE: discover.dfy ===
/** The people search: a trimmed query filters a user list by a
    case-insensitive substring match on name or username, and the follow
    button flips one user's `isFollowing` flag in the results. */
module Discover {
  import opened Common
  import opened JsText

  datatype User = User(id: int, name: string, username: string, isFollowing: bool)

  /** The lower-cased query occurs in the lower-cased name or username. */
  ghost predicate Matches(u: User, query: string)
  {
    (exists i :: OccursAt(Lower(u.name), Lower(query), i))
    || (exists i :: OccursAt(Lower(u.username), Lower(query), i))
  }

  /** The `filter` of `performSearch`: the users that match, in their
      original order. */
  function FilterUsers(users: seq<User>, query: string): (r: seq<User>)
    ensures IsSubseq(r, users)
    ensures forall u :: u in r <==> u in users && Matches(u, query)
    ensures forall u :: multiset(r)[u] == if Matches(u, query) then multiset(users)[u] else 0
    decreases |users|
  {
    if |users| == 0 then SubseqEmpty(users); []
    else
      var u := users[0];
      var rest := FilterUsers(users[1..], query);
      assert users == [u] + users[1..];
      if Includes(Lower(u.name), Lower(query)) || Includes(Lower(u.username), Lower(query)) then
        SubseqKeep(u, rest, users[1..]);
        [u] + rest
      else
        SubseqDrop(u, rest, users[1..]);
        rest
  }

  /** `performSearch(query)`: an empty query yields no result; any other
      query yields the matching users in their original order. */
  function PerformSearch(users: seq<User>, query: string): (r: seq<User>)
    ensures query == "" ==> r == []
    ensures IsSubseq(r, users)
    ensures query != "" ==> forall u :: u in r <==> u in users && Matches(u, query)
    ensures query != "" ==> forall u :: multiset(r)[u] == if Matches(u, query) then multiset(users)[u] else 0
  {
    if query == "" then SubseqEmpty(users); [] else FilterUsers(users, query)
  }

  /** The search box as a whole: the typed text is trimmed before it reaches
      `performSearch`, so text made only of white space finds nobody, and
      otherwise a user is found exactly when the trimmed text matches. */
  function Search(users: seq<User>, typed: string): (r: seq<User>)
    ensures AllSpace(typed) ==> r == []
    ensures IsSubseq(r, users)
    ensures !AllSpace(typed) ==> forall u :: u in r <==> u in users && Matches(u, Trim(typed))
  {
    PerformSearch(users, Trim(typed))
  }

  /** The search ignores ASCII case: two queries that differ only in the case
      of their letters find the same users. */
  lemma SearchCaseInsensitive(users: seq<User>, q1: string, q2: string)
    requires SameUpToCase(q1, q2)
    ensures PerformSearch(users, q1) == PerformSearch(users, q2)
  {
    LowerCaseInsensitive(q1, q2);
    FilterSameLower(users, q1, q2);
  }

  /** Helper for `SearchCaseInsensitive`: the filter only sees the lower-cased
      query. */
  lemma {:induction false} FilterSameLower(users: seq<User>, q1: string, q2: string)
    requires Lower(q1) == Lower(q2)
    ensures FilterUsers(users, q1) == FilterUsers(users, q2)
    decreases |users|
  {
    if |users| > 0 {
      FilterSameLower(users[1..], q1, q2);
    }
  }

  /** Searching the typed text and searching its trimmed form agree:
      surrounding white space never changes the result. */
  lemma SearchTrimmed(users: seq<User>, typed: string)
    ensures Search(users, Trim(typed)) == Search(users, typed)
  {
  }

  /** `toggleFollow(userId)`: every user with that id has `isFollowing`
      flipped; everything else, including the length and order of the list,
      is kept. */
  function ToggleFollow(users: seq<User>, id: int): (r: seq<User>)
    ensures |r| == |users|
    ensures forall i :: 0 <= i < |users| ==>
      && r[i].id == users[i].id && r[i].name == users[i].name && r[i].username == users[i].username
      && (r[i].isFollowing <==> (users[i].isFollowing != (users[i].id == id)))
  {
    seq(|users|, i requires 0 <= i < |users| =>
      if users[i].id == id then users[i].(isFollowing := !users[i].isFollowing) else users[i])
  }

  /** Following and unfollowing the same user restores the list. */
  lemma ToggleFollowTwice(users: seq<User>, id: int)
    ensures ToggleFollow(ToggleFollow(users, id), id) == users
  {
  }
}

=== FILE: js_text.dfy ===
/** The JavaScript string operations the client relies on: `trim`,
    `toLowerCase` (restricted to ASCII), `includes`, and `length` counted in
    UTF-16 code units. Strings are sequences of Unicode scalar values. */
module JsText {

  /** The characters `String.prototype.trim` removes: ECMAScript's WhiteSpace
      (TAB, VT, FF, ZWNBSP and the Space_Separator category) and LineTerminator
      (LF, CR, LS, PS) productions. */
  predicate IsSpace(c: char)
  {
    || c == '\t' || c == '\n' || c == '\U{000B}' || c == '\U{000C}' || c == '\r'
    || c == ' ' || c == '\U{00A0}' || c == '\U{1680}'
    || ('\U{2000}' <= c <= '\U{200A}')
    || c == '\U{2028}' || c == '\U{2029}' || c == '\U{202F}' || c == '\U{205F}'
    || c == '\U{3000}' || c == '\U{FEFF}'
  }

  /** Every character of `s` is white space (vacuously true of ""). */
  ghost predicate AllSpace(s: string)
  {
    forall i :: 0 <= i < |s| ==> IsSpace(s[i])
  }

  /** Every character of `s` outside the `n` characters starting at `k` is
      white space. */
  ghost predicate SpaceOutside(s: string, k: int, n: int)
  {
    forall i :: 0 <= i < |s| && !(k <= i < k + n) ==> IsSpace(s[i])
  }

  /** `s` without its leading white space. */
  function TrimStart(s: string): (r: string)
    ensures |r| <= |s| && r == s[|s| - |r|..]
    ensures forall i :: 0 <= i < |s| - |r| ==> IsSpace(s[i])
    ensures |r| > 0 ==> !IsSpace(r[0])
    decreases |s|
  {
    if |s| > 0 && IsSpace(s[0]) then
      var r := TrimStart(s[1..]);
      forall i | 1 <= i < |s| - |r|
        ensures IsSpace(s[i])
      {
        assert s[i] == s[1..][i - 1];
      }
      r
    else s
  }

  /** `s` without its trailing white space. */
  function TrimEnd(s: string): (r: string)
    ensures |r| <= |s| && r == s[..|r|]
    ensures forall i :: |r| <= i < |s| ==> IsSpace(s[i])
    ensures |r| > 0 ==> !IsSpace(r[|r| - 1])
    decreases |s|
  {
    if |s| > 0 && IsSpace(s[|s| - 1]) then
      var r := TrimEnd(s[..|s| - 1]);
      forall i | |r| <= i < |s| - 1
        ensures IsSpace(s[i])
      {
        assert s[i] == s[..|s| - 1][i];
      }
      r
    else s
  }

  /** `r` is the slice of `s` that starts at `k`. */
  ghost predicate SliceAt(s: string, k: int, r: string)
  {
    0 <= k && k + |r| <= |s| && s[k..k + |r|] == r
  }

  /** `String.prototype.trim`: the slice of `s` left after dropping the white
      space at both ends. Everything outside that slice is white space; the
      slice is empty exactly when `s` is all white space, and otherwise it
      neither starts nor ends with white space. */
  function Trim(s: string): (r: string)
    ensures exists k :: SliceAt(s, k, r) && SpaceOutside(s, k, |r|)
    ensures |r| == 0 <==> AllSpace(s)
    ensures |r| > 0 ==> !IsSpace(r[0]) && !IsSpace(r[|r| - 1])
  {
    var t := TrimStart(s);
    var r := TrimEnd(t);
    TrimSlice(s);
    r
  }

  /** Helper for `Trim`: the result of both passes is the slice starting at
      the end of the leading white space, and only white space lies outside
      it. */
  lemma TrimSlice(s: string)
    ensures var k := |s| - |TrimStart(s)|; var r := TrimEnd(TrimStart(s));
      SliceAt(s, k, r) && SpaceOutside(s, k, |r|)
  {
    var t := TrimStart(s);
    var k := |s| - |t|;
    TrimSliceAt(s, t, k, TrimEnd(t));
    TrimSpaceOutside(s, t, k, TrimEnd(t));
  }

  /** Helper for `TrimSlice`: a prefix of a suffix is a slice. */
  lemma TrimSliceAt(s: string, t: string, k: int, r: string)
    requires 0 <= k <= |s| && t == s[k..]
    requires |r| <= |t| && r == t[..|r|]
    ensures SliceAt(s, k, r)
  {
    assert s[k..k + |r|] == t[..|r|];
  }

  /** Helper for `TrimSlice`: white space before the suffix and after the
      prefix is white space outside the slice. */
  lemma TrimSpaceOutside(s: string, t: string, k: int, r: string)
    requires 0 <= k <= |s| && t == s[k..] && |r| <= |t|
    requires forall i :: 0 <= i < k ==> IsSpace(s[i])
    requires forall i :: |r| <= i < |t| ==> IsSpace(t[i])
    ensures SpaceOutside(s, k, |r|)
  {
    forall i | 0 <= i < |s| && !(k <= i < k + |r|)
      ensures IsSpace(s[i])
    {
      if i >= k {
        assert s[i] == t[i - k];
      }
    }
  }

  /** Trimming twice is trimming once. */
  lemma TrimIdempotent(s: string)
    ensures Trim(Trim(s)) == Trim(s)
  {
  }

  /** An ASCII capital letter. */
  predicate IsUpper(c: char)
  {
    'A' <= c <= 'Z'
  }

  /** ASCII case folding of one character; all other characters are kept. */
  function LowerChar(c: char): char
  {
    if IsUpper(c) then (c as int + 32) as char else c
  }

  /** `toLowerCase` on the ASCII range: each capital `A`..`Z` becomes the
      letter 32 code points later (`a`..`z`), and every other character is
      kept. */
  function Lower(s: string): (r: string)
    ensures |r| == |s|
    ensures forall i :: 0 <= i < |s| && IsUpper(s[i]) ==> r[i] as int == s[i] as int + 32 && 'a' <= r[i] <= 'z'
    ensures forall i :: 0 <= i < |s| && !IsUpper(s[i]) ==> r[i] == s[i]
  {
    seq(|s|, i requires 0 <= i < |s| => LowerChar(s[i]))
  }

  /** `a` and `b` differ at most in the case of ASCII letters. */
  ghost predicate SameUpToCase(a: string, b: string)
  {
    && |a| == |b|
    && forall i :: 0 <= i < |a| ==>
         || a[i] == b[i]
         || (IsUpper(a[i]) && b[i] as int == a[i] as int + 32)
         || (IsUpper(b[i]) && a[i] as int == b[i] as int + 32)
  }

  /** Lower-casing is blind to ASCII case: strings that differ only in the
      case of their letters lower to the same string. */
  lemma LowerCaseInsensitive(a: string, b: string)
    requires SameUpToCase(a, b)
    ensures Lower(a) == Lower(b)
  {
    forall i | 0 <= i < |a|
      ensures Lower(a)[i] == Lower(b)[i]
    {
      if IsUpper(a[i]) && b[i] as int == a[i] as int + 32 {
        assert !IsUpper(b[i]);
      } else if IsUpper(b[i]) && a[i] as int == b[i] as int + 32 {
        assert !IsUpper(a[i]);
      }
    }
  }

  /** A lower-cased string has no ASCII capital letter, and lower-casing it
      again changes nothing. */
  lemma LowerIdempotent(s: string)
    ensures forall i :: 0 <= i < |s| ==> !IsUpper(Lower(s)[i])
    ensures Lower(Lower(s)) == Lower(s)
  {
  }

  /** `needle` occurs in `hay` starting at position `i`. */
  ghost predicate OccursAt(hay: string, needle: string, i: int)
  {
    0 <= i && i + |needle| <= |hay| && hay[i..i + |needle|] == needle
  }

  /** `hay.includes(needle)`: true exactly when `needle` occurs somewhere in
      `hay` (the empty string occurs everywhere). */
  function Includes(hay: string, needle: string): (b: bool)
    ensures b <==> exists i :: OccursAt(hay, needle, i)
    decreases |hay|
  {
    if |needle| <= |hay| && hay[..|needle|] == needle then
      assert OccursAt(hay, needle, 0);
      true
    else if |hay| == 0 then
      false
    else
      var b := Includes(hay[1..], needle);
      assert forall i :: OccursAt(hay[1..], needle, i) ==> OccursAt(hay, needle, i + 1);
      assert forall i :: OccursAt(hay, needle, i) ==> i > 0 && OccursAt(hay[1..], needle, i - 1);
      b
  }

  /** The number of UTF-16 code units of a character: two for a character
      outside the Basic Multilingual Plane, one otherwise. */
  function Utf16Units(c: char): nat
  {
    if c as int >= 0x1_0000 then 2 else 1
  }

  /** The positions of `s` holding a character outside the Basic
      Multilingual Plane (one encoded as a surrogate pair). */
  ghost function AstralPositions(s: string): set<int>
  {
    set i | 0 <= i < |s| && s[i] as int >= 0x1_0000
  }

  /** JavaScript's `length`: the UTF-16 code-unit count of `s`, that is, the
      number of characters plus one for each character outside the Basic
      Multilingual Plane. It equals the number of characters exactly when no
      character lies outside that plane. */
  function Utf16Length(s: string): (n: nat)
    ensures n == |s| + |AstralPositions(s)|
    ensures |s| <= n <= 2 * |s|
    ensures n == |s| <==> forall i :: 0 <= i < |s| ==> s[i] as int < 0x1_0000
    decreases |s|
  {
    if |s| == 0 then
      assert AstralPositions(s) == {};
      0
    else
      var init := s[..|s| - 1];
      var last := s[|s| - 1];
      var n := Utf16Length(init) + Utf16Units(last);
      assert forall i :: 0 <= i < |init| ==> s[i] == init[i];
      if last as int >= 0x1_0000 then
        assert AstralPositions(s) == AstralPositions(init) + {|s| - 1};
        n
      else
        assert AstralPositions(s) == AstralPositions(init);
        n
  }

  /** `s.startsWith(prefix)`. */
  predicate StartsWith(s: string, prefix: string)
  {
    |prefix| <= |s| && s[..|prefix|] == prefix
  }
}

=== FILE: post_card.dfy ===
/** A feed post: the like toggle over the list of user ids that liked it, and
    the hashtag highlighting applied to the post text before it is rendered
    as HTML. */
module PostCard {
  import opened Common

  /** `likes.filter((id) => id !== x)`: every occurrence of `x` removed. The
      result keeps all other ids, with their multiplicities and their order. */
  function RemoveAll<T(==)>(s: seq<T>, x: T): (r: seq<T>)
    ensures x !in r
    ensures multiset(r) == multiset(s)[x := 0]
    ensures IsSubseq(r, s)
    ensures |r| == |s| - multiset(s)[x]
    decreases |s|
  {
    if |s| == 0 then []
    else
      var rest := RemoveAll(s[1..], x);
      assert s == [s[0]] + s[1..];
      if s[0] == x then
        SubseqDrop(s[0], rest, s[1..]);
        rest
      else
        SubseqKeep(s[0], rest, s[1..]);
        [s[0]] + rest
  }

  /** `handleLike`: unlike (drop every occurrence of the current user) when
      the user is in the list, otherwise like (append the user at the end). */
  function ToggleLike<T(==)>(likes: seq<T>, me: T): (r: seq<T>)
    ensures (me in r) <==> (me !in likes)
    ensures me !in likes ==> |r| == |likes| + 1 && r[..|likes|] == likes && r[|likes|] == me
    ensures me in likes ==> multiset(r) == multiset(likes)[me := 0] && IsSubseq(r, likes)
    ensures me in likes ==> |r| == |likes| - multiset(likes)[me]
  {
    if me in likes then RemoveAll(likes, me) else likes + [me]
  }

  /** Removing an id that is absent changes nothing. */
  lemma {:induction false} RemoveAllAbsent<T>(s: seq<T>, x: T)
    requires x !in s
    ensures RemoveAll(s, x) == s
    decreases |s|
  {
    if |s| > 0 {
      RemoveAllAbsent(s[1..], x);
    }
  }

  /** Liking and then unliking, from a list without the current user, gives
      back the original list. */
  lemma {:induction false} ToggleLikeTwice<T>(likes: seq<T>, me: T)
    requires me !in likes
    ensures ToggleLike(ToggleLike(likes, me), me) == likes
    decreases |likes|
  {
    if |likes| == 0 {
      assert [me][1..] == [];
    } else {
      assert (likes + [me])[1..] == likes[1..] + [me];
      ToggleLikeTwice(likes[1..], me);
    }
  }

  /** From a list that holds the current user (possibly several times),
      two toggles leave the user exactly once, at the end. */
  lemma ToggleLikeTwicePresent<T>(likes: seq<T>, me: T)
    requires me in likes
    ensures ToggleLike(ToggleLike(likes, me), me) == RemoveAll(likes, me) + [me]
  {
  }

  /** The markup wrapped around each hashtag. */
  const OpenTag: string := "<span class=\"text-indigo-600\">"
  const CloseTag: string := "</span>"

  /** The regular-expression class `\w`. */
  predicate IsWordChar(c: char)
  {
    ('a' <= c <= 'z') || ('A' <= c <= 'Z') || ('0' <= c <= '9') || c == '_'
  }

  /** The length of the longest prefix of `s` made of word characters: how
      far the greedy `\w+` reaches. */
  function WordRun(s: string): (n: nat)
    ensures n <= |s|
    ensures forall i :: 0 <= i < n ==> IsWordChar(s[i])
    ensures n < |s| ==> !IsWordChar(s[n])
    decreases |s|
  {
    if |s| > 0 && IsWordChar(s[0]) then 1 + WordRun(s[1..]) else 0
  }

  /** A hashtag `#\w+` starts at position `i`. */
  predicate HashtagAt(s: string, i: nat)
  {
    i + 1 < |s| && s[i] == '#' && IsWordChar(s[i + 1])
  }

  /** `s` holds no hashtag at all. */
  ghost predicate NoHashtag(s: string)
  {
    forall i: nat :: i < |s| ==> !HashtagAt(s, i)
  }

  /** `content.replace(/(#\w+)/g, OpenTag + "$1" + CloseTag)`: scanning left
      to right, each leftmost `#` followed by the longest run of word
      characters is wrapped in the markup and the scan resumes after it.
      Content without a hashtag comes back unchanged, and content with one
      grows by at least one pair of tags. */
  function Highlight(s: string): (r: string)
    ensures NoHashtag(s) ==> r == s
    ensures !NoHashtag(s) ==> |r| >= |s| + |OpenTag| + |CloseTag|
    ensures |r| >= |s|
    decreases |s|
  {
    if |s| == 0 then []
    else if HashtagAt(s, 0) then
      var n := 1 + WordRun(s[1..]);
      OpenTag + s[..n] + CloseTag + Highlight(s[n..])
    else
      var rest := Highlight(s[1..]);
      assert forall i: nat :: i < |s| - 1 ==> (HashtagAt(s[1..], i) <==> HashtagAt(s, i + 1));
      assert NoHashtag(s) ==> NoHashtag(s[1..]);
      assert !NoHashtag(s) ==> !NoHashtag(s[1..]) by {
        if !NoHashtag(s) {
          var i: nat :| i < |s| && HashtagAt(s, i);
          assert HashtagAt(s[1..], i - 1);
        }
      }
      assert s == [s[0]] + s[1..];
      [s[0]] + rest
  }

  /** A hashtag is `#` followed by a maximal run of word characters: that
      whole run is wrapped, and the scan continues right after it. */
  lemma HighlightWrapsHashtag(w: string, rest: string)
    requires |w| > 0 && forall i :: 0 <= i < |w| ==> IsWordChar(w[i])
    requires |rest| > 0 ==> !IsWordChar(rest[0])
    ensures Highlight("#" + w + rest) == OpenTag + ("#" + w) + CloseTag + Highlight(rest)
  {
    var hw := "#" + w;
    HashtagHead(w, rest);
    SplitConcat(hw, rest);
    HighlightWrapsHead(hw + rest);
  }

  /** Helper for `HighlightWrapsHashtag`: `#` and a word not followed by a
      word character form a hashtag whose run is exactly the word. */
  lemma HashtagHead(w: string, rest: string)
    requires |w| > 0 && forall i :: 0 <= i < |w| ==> IsWordChar(w[i])
    requires |rest| > 0 ==> !IsWordChar(rest[0])
    ensures HashtagAt(("#" + w) + rest, 0)
    ensures 1 + WordRun((("#" + w) + rest)[1..]) == |"#" + w|
  {
    var s := ("#" + w) + rest;
    assert s[0] == '#' && s[1] == w[0];
    assert s[1..] == w + rest;
    WordRunOfWord(w, rest);
  }

  /** Cutting a concatenation at the seam gives back its two parts. */
  lemma SplitConcat<T>(a: seq<T>, b: seq<T>)
    ensures (a + b)[..|a|] == a && (a + b)[|a|..] == b
  {
  }

  /** Helper for `HighlightWrapsHashtag`: a leading hashtag and its word run
      are wrapped. */
  lemma HighlightWrapsHead(s: string)
    requires HashtagAt(s, 0)
    ensures var n := 1 + WordRun(s[1..]);
      Highlight(s) == OpenTag + s[..n] + CloseTag + Highlight(s[n..])
  {
  }

  /** Text in which no hashtag starts is copied unchanged, and the scan
      resumes on what follows it: markup appears only around hashtags. */
  lemma {:induction false} HighlightPlainPrefix(p: string, s: string)
    requires forall i :: 0 <= i < |p| ==> !HashtagAt(p + s, i)
    ensures Highlight(p + s) == p + Highlight(s)
    decreases |p|
  {
    if |p| == 0 {
      assert p + s == s;
    } else {
      var ps := p + s;
      assert !HashtagAt(ps, 0);
      calc {
        Highlight(ps);
      == { HighlightCopiesHead(ps); }
        [ps[0]] + Highlight(ps[1..]);
      == { PlainPrefixTail(p, s); }
        [p[0]] + Highlight(p[1..] + s);
      == { PlainPrefixTail(p, s); HighlightPlainPrefix(p[1..], s); }
        [p[0]] + (p[1..] + Highlight(s));
      == { assert [p[0]] + p[1..] == p; }
        p + Highlight(s);
      }
    }
  }

  /** Helper for `HighlightPlainPrefix`: the hypothesis carries over to the
      tail of the prefix. */
  lemma PlainPrefixTail(p: string, s: string)
    requires |p| > 0
    requires forall i :: 0 <= i < |p| ==> !HashtagAt(p + s, i)
    ensures (p + s)[1..] == p[1..] + s
    ensures forall i :: 0 <= i < |p| - 1 ==> !HashtagAt(p[1..] + s, i)
  {
    var ps := p + s;
    assert ps[1..] == p[1..] + s;
    forall i | 0 <= i < |p| - 1
      ensures !HashtagAt(p[1..] + s, i)
    {
      assert !HashtagAt(ps, i + 1);
    }
  }

  /** Helper for `HighlightRoundTrip`: both parts of text without `<` have
      no `<`, and they make up the text. */
  lemma PlainSplit(s: string, n: int)
    requires '<' !in s && 0 <= n <= |s|
    ensures '<' !in s[..n] && '<' !in s[n..] && s[..n] + s[n..] == s
  {
    assert s[..n] + s[n..] == s;
  }

  /** Helper for `HighlightRoundTrip`: the same split after the first
      character. */
  lemma PlainHead(s: string)
    requires '<' !in s && |s| > 0
    ensures '<' !in [s[0]] && '<' !in s[1..] && [s[0]] + s[1..] == s
  {
    assert [s[0]] + s[1..] == s;
  }

  /** Helper for `HighlightPlainPrefix`: a first character that starts no
      hashtag is copied. */
  lemma HighlightCopiesHead(s: string)
    requires |s| > 0 && !HashtagAt(s, 0)
    ensures Highlight(s) == [s[0]] + Highlight(s[1..])
  {
  }

  /** `"a #b"` gets exactly one pair of tags, around `#b` only. */
  lemma HighlightExample()
    ensures Highlight("a #b") == "a " + (OpenTag + "#b" + CloseTag)
  {
    assert "a #b" == "a " + "#b";
    HighlightPlainPrefix("a ", "#b");
    assert "#b" + "" == "#b";
    HighlightWrapsHashtag("b", "");
  }

  /** Helper for `HighlightWrapsHashtag`: the run stops where the word ends. */
  lemma {:induction false} WordRunOfWord(w: string, rest: string)
    requires forall i :: 0 <= i < |w| ==> IsWordChar(w[i])
    requires |rest| > 0 ==> !IsWordChar(rest[0])
    ensures WordRun(w + rest) == |w|
    decreases |w|
  {
    if |w| == 0 {
      assert w + rest == rest;
    } else {
      assert (w + rest)[1..] == w[1..] + rest;
      WordRunOfWord(w[1..], rest);
    }
  }

  /** Removes every occurrence of the highlight markup, keeping everything
      else: the inverse of `Highlight` on text that holds no `<`. */
  function Unhighlight(s: string): string
    decreases |s|
  {
    if |s| == 0 then []
    else if |OpenTag| <= |s| && s[..|OpenTag|] == OpenTag then Unhighlight(s[|OpenTag|..])
    else if |CloseTag| <= |s| && s[..|CloseTag|] == CloseTag then Unhighlight(s[|CloseTag|..])
    else [s[0]] + Unhighlight(s[1..])
  }

  /** Characters other than `<` pass through `Unhighlight` untouched. */
  lemma {:induction false} UnhighlightPlain(p: string, s: string)
    requires '<' !in p
    ensures Unhighlight(p + s) == p + Unhighlight(s)
    decreases |p|
  {
    if |p| > 0 {
      var ps := p + s;
      assert ps[0] == p[0] != '<';
      assert OpenTag[0] == '<' && CloseTag[0] == '<';
      assert |OpenTag| <= |ps| ==> ps[..|OpenTag|][0] != OpenTag[0];
      assert |CloseTag| <= |ps| ==> ps[..|CloseTag|][0] != CloseTag[0];
      assert !(|OpenTag| <= |ps| && ps[..|OpenTag|] == OpenTag);
      assert !(|CloseTag| <= |ps| && ps[..|CloseTag|] == CloseTag);
      assert Unhighlight(ps) == [ps[0]] + Unhighlight(ps[1..]);
      assert ps[1..] == p[1..] + s;
      UnhighlightPlain(p[1..], s);
      assert [p[0]] + (p[1..] + Unhighlight(s)) == p + Unhighlight(s);
    } else {
      assert p + s == s;
    }
  }

  /** A leading pair of tags around plain text is stripped. */
  lemma UnhighlightTagged(w: string, rest: string)
    requires '<' !in w
    ensures Unhighlight(OpenTag + w + CloseTag + rest) == w + Unhighlight(rest)
  {
    var t := OpenTag + w + CloseTag + rest;
    assert t[..|OpenTag|] == OpenTag;
    assert t[|OpenTag|..] == w + (CloseTag + rest);
    UnhighlightPlain(w, CloseTag + rest);
    var u := CloseTag + rest;
    assert u[..|CloseTag|] == CloseTag;
    assert u[|CloseTag|..] == rest;
    assert |u| > 0;
    assert !(|OpenTag| <= |u| && u[..|OpenTag|] == OpenTag) by {
      if |OpenTag| <= |u| {
        assert u[..|OpenTag|][1] == '/' != OpenTag[1];
      }
    }
  }

  /** Highlighting loses nothing: stripping the markup from highlighted
      text (with no `<` of its own) gives the text back. */
  lemma {:induction false} HighlightRoundTrip(s: string)
    requires '<' !in s
    ensures Unhighlight(Highlight(s)) == s
    decreases |s|
  {
    if |s| == 0 {
    } else if HashtagAt(s, 0) {
      var n := 1 + WordRun(s[1..]);
      PlainSplit(s, n);
      calc {
        Unhighlight(Highlight(s));
      == { HighlightWrapsHead(s); }
        Unhighlight(OpenTag + s[..n] + CloseTag + Highlight(s[n..]));
      == { UnhighlightTagged(s[..n], Highlight(s[n..])); }
        s[..n] + Unhighlight(Highlight(s[n..]));
      == { HighlightRoundTrip(s[n..]); }
        s[..n] + s[n..];
      }
    } else {
      PlainHead(s);
      calc {
        Unhighlight(Highlight(s));
      == { HighlightCopiesHead(s); }
        Unhighlight([s[0]] + Highlight(s[1..]));
      == { UnhighlightPlain([s[0]], Highlight(s[1..])); }
        [s[0]] + Unhighlight(Highlight(s[1..]));
      == { HighlightRoundTrip(s[1..]); }
        [s[0]] + s[1..];
      }
    }
  }

}

=== FILE: signup.dfy ===
/** The password checks of the sign-up form, which decide whether the
    registration request is sent and with which body. */
module Signup {
  import opened JsText

  const MismatchMessage: string := "Passwords do not match"
  const TooShortMessage: string := "Password must be at least 6 characters long"

  /** The least accepted password length, in UTF-16 code units. */
  const MinPasswordLength: nat := 6

  /** The JSON body of the registration request. */
  datatype Registration = Registration(name: string, email: string, password: string)

  datatype SignupOutcome =
    | Rejected(message: string)      // shown as the form error; no request is made
    | Register(body: Registration)   // the request to the registration endpoint

  /** `handleSubmit` up to the request: the mismatch check comes first, then
      the length check; only a password that passes both is sent, together
      with the name and e-mail and nothing else. */
  function Submit(name: string, email: string, password: string, confirm: string): (o: SignupOutcome)
    ensures o.Register? <==> password == confirm && Utf16Length(password) >= MinPasswordLength
    ensures o.Register? ==> o.body == Registration(name, email, password)
    ensures password != confirm ==> o == Rejected(MismatchMessage)
    ensures password == confirm && Utf16Length(password) < MinPasswordLength ==> o == Rejected(TooShortMessage)
  {
    if password != confirm then Rejected(MismatchMessage)
    else if Utf16Length(password) < MinPasswordLength then Rejected(TooShortMessage)
    else Register(Registration(name, email, password))
  }

  /** A short password that also differs from its confirmation is reported
      as a mismatch, never as too short. */
  lemma MismatchTakesPrecedence(name: string, email: string, password: string, confirm: string)
    requires password != confirm && Utf16Length(password) < MinPasswordLength
    ensures Submit(name, email, password, confirm) == Rejected(MismatchMessage)
  {
  }

  /** Matching passwords of at least 6 characters are always long enough,
      and matching passwords of fewer than 3 characters never are, whatever
      the characters; in between it depends on how many lie outside the Basic
      Multilingual Plane. */
  lemma LengthByCharacters(name: string, email: string, password: string)
    ensures |password| >= 6 ==> Submit(name, email, password, password).Register?
    ensures |password| < 3 ==> Submit(name, email, password, password) == Rejected(TooShortMessage)
  {
  }

  /** The length is counted in UTF-16 code units: three emoji outside the
      Basic Multilingual Plane already make a long enough password, while
      five ordinary characters do not. */
  lemma LengthInCodeUnits()
    ensures Submit("a", "b", "\U{1F600}\U{1F600}\U{1F600}", "\U{1F600}\U{1F600}\U{1F600}").Register?
    ensures Submit("a", "b", "abcde", "abcde") == Rejected(TooShortMessage)
  {
  }
}

=== FILE: story_modal.dfy ===
/** The story composer: a text story (text on a chosen background colour) or
    a media story (one uploaded image or video). Uploads are checked against a
    MIME whitelist and a size bound; sharing is refused while a submission is
    in flight or while the story is empty, and otherwise produces the form
    payload sent to the server. */
module StoryModal {
  import opened Common
  import opened JsText

  /** The largest accepted upload: 25 MiB. */
  const MaxUploadBytes: nat := 25 * 1024 * 1024

  /** The MIME types an upload may have. */
  const AllowedTypes: seq<string> :=
    ["image/jpeg", "image/png", "image/webp", "image/gif", "video/mp4", "video/webm"]

  /** The background colours offered for a text story; the first is the default. */
  const Backgrounds: seq<string> :=
    ["#f28b82", "#fbbc04", "#fff475", "#ccff90", "#a7ffeb", "#aecbfa", "#d7aefb", "#fdcfe8"]

  datatype Mode = TextMode | MediaMode

  /** A selected file: its MIME type and its size in bytes. */
  datatype File = File(mime: string, size: nat)

  datatype Composer = Composer(
    mode: Mode,
    background: string,
    text: string,
    media: Option<File>,
    submitting: bool)

  /** The composer as the modal opens. */
  const Initial: Composer := Composer(TextMode, Backgrounds[0], "", None, false)

  /** The modal opens on an empty text story, so Share starts disabled. */
  lemma InitialShareDisabled()
    ensures Initial.background == "#f28b82"
    ensures IsStoryEmpty(Initial) && !ShareEnabled(Initial)
    ensures CreateStory(Initial) == EmptyText
  {
  }

  /** What `handleMediaUpload` makes of a file selection. */
  datatype UploadCheck = NoFile | UnsupportedType | TooLarge | Accepted

  /** The checks of `handleMediaUpload`, in their order: a selection must
      hold a file, of a whitelisted type, of at most 25 MiB. */
  function CheckUpload(f: Option<File>): (c: UploadCheck)
    ensures c == Accepted <==> f.Some? && f.value.mime in AllowedTypes && f.value.size <= MaxUploadBytes
    ensures c == UnsupportedType <==> f.Some? && f.value.mime !in AllowedTypes
    ensures c == TooLarge <==> f.Some? && f.value.mime in AllowedTypes && f.value.size > MaxUploadBytes
  {
    match f
    case None => NoFile
    case Some(file) =>
      if file.mime !in AllowedTypes then UnsupportedType
      else if file.size > MaxUploadBytes then TooLarge
      else Accepted
  }

  /** `handleMediaUpload`: an accepted file becomes the story's media and
      switches to media mode; any rejected selection leaves the composer as
      it was. */
  function HandleMediaUpload(c: Composer, f: Option<File>): (r: Composer)
    ensures CheckUpload(f) != Accepted ==> r == c
    ensures CheckUpload(f) == Accepted ==> r.media == f && r.mode == MediaMode
    ensures r.text == c.text && r.background == c.background && r.submitting == c.submitting
  {
    if CheckUpload(f) == Accepted then c.(media := f, mode := MediaMode) else c
  }

  /** The size bound is inclusive: a whitelisted file of exactly 25 MiB is
      accepted, one byte more is refused. */
  lemma SizeBoundInclusive(mime: string)
    requires mime in AllowedTypes
    ensures CheckUpload(Some(File(mime, 26214400))) == Accepted
    ensures CheckUpload(Some(File(mime, 26214401))) == TooLarge
  {
  }

  /** `removeMedia`: back to an empty text story, keeping the text and colour. */
  function RemoveMedia(c: Composer): (r: Composer)
    ensures r.media == None && r.mode == TextMode
    ensures r.text == c.text && r.background == c.background && r.submitting == c.submitting
  {
    c.(media := None, mode := TextMode)
  }

  /** Removing an uploaded file undoes the upload. */
  lemma UploadThenRemove(c: Composer, f: Option<File>)
    requires c.mode == TextMode && c.media == None
    ensures RemoveMedia(HandleMediaUpload(c, f)) == c
  {
  }

  /** `isStoryEmpty`: a text story whose text is only white space, or a media
      story without media. */
  function IsStoryEmpty(c: Composer): (e: bool)
    ensures c.mode == TextMode ==> (e <==> AllSpace(c.text))
    ensures c.mode == MediaMode ==> (e <==> c.media.None?)
  {
    if c.mode == TextMode then |Trim(c.text)| == 0 else c.media.None?
  }

  /** The Share button is enabled: nothing is being submitted, and the story
      has some non-white-space text or, in media mode, a file. */
  function ShareEnabled(c: Composer): (b: bool)
    ensures b <==> !c.submitting && (if c.mode == TextMode then !AllSpace(c.text) else c.media.Some?)
  {
    !(IsStoryEmpty(c) || c.submitting)
  }

  datatype StoryType = TextStory | ImageStory | VideoStory

  /** The form fields sent to the server. */
  datatype Payload =
    | MediaPayload(media: File, storyType: StoryType)
    | TextPayload(content: string, background: string)

  datatype CreateOutcome =
    | Ignored            // a submission is already in flight
    | EmptyText          // text mode with nothing but white space
    | MissingMedia       // media mode without a file
    | Sent(payload: Payload)

  /** The type field of a media payload: `video` for a MIME type starting
      with "video", `image` for anything else. */
  function MediaStoryType(mime: string): (t: StoryType)
    ensures t == VideoStory <==> StartsWith(mime, "video")
    ensures t != TextStory
  {
    if StartsWith(mime, "video") then VideoStory else ImageStory
  }

  /** `handleCreateStory` up to the request: it refuses while submitting,
      validates the story, and shapes the payload. */
  function CreateStory(c: Composer): (o: CreateOutcome)
    ensures c.submitting ==> o == Ignored
    ensures !c.submitting ==> (o.Sent? <==> !IsStoryEmpty(c))
    ensures !c.submitting && c.mode == TextMode && AllSpace(c.text) ==> o == EmptyText
    ensures !c.submitting && c.mode == MediaMode && c.media.None? ==> o == MissingMedia
    ensures o.Sent? ==> (o.payload.MediaPayload? <==> c.mode == MediaMode)
    ensures o.Sent? && o.payload.MediaPayload? ==>
      c.media == Some(o.payload.media) && (o.payload.storyType == VideoStory <==> StartsWith(c.media.value.mime, "video"))
    ensures o.Sent? && o.payload.TextPayload? ==>
      o.payload.content == Trim(c.text) && |o.payload.content| > 0 && o.payload.background == c.background
  {
    if c.submitting then Ignored
    else if IsStoryEmpty(c) then
      if c.mode == TextMode then EmptyText else MissingMedia
    else if c.mode == MediaMode then
      Sent(MediaPayload(c.media.value, MediaStoryType(c.media.value.mime)))
    else
      Sent(TextPayload(Trim(c.text), c.background))
  }

  /** The composer once a story has been sent: `isSubmitting` is set until
      the request settles. */
  function AfterCreate(c: Composer): (r: Composer)
    ensures CreateStory(c).Sent? ==> r.submitting && ShareEnabled(c) && !ShareEnabled(r)
    ensures !CreateStory(c).Sent? ==> r == c
    ensures r.mode == c.mode && r.text == c.text && r.background == c.background && r.media == c.media
  {
    if CreateStory(c).Sent? then c.(submitting := true) else c
  }

  /** The Share button is enabled exactly when pressing it sends a story. */
  lemma ShareEnabledIffSent(c: Composer)
    ensures ShareEnabled(c) <==> CreateStory(c).Sent?
  {
  }

  /** An accepted upload, shared, is sent as a video exactly for the two
      whitelisted video types. */
  lemma AcceptedUploadType(c: Composer, f: File)
    requires !c.submitting
    requires CheckUpload(Some(f)) == Accepted
    ensures CreateStory(HandleMediaUpload(c, Some(f))).Sent?
    ensures CreateStory(HandleMediaUpload(c, Some(f))).payload.MediaPayload?
    ensures CreateStory(HandleMediaUpload(c, Some(f))).payload.storyType == VideoStory
        <==> f.mime == "video/mp4" || f.mime == "video/webm"
  {
    var v := "video";
    assert StartsWith("video/mp4", v) && StartsWith("video/webm", v);
    forall m | m in AllowedTypes && m[0] == 'i'
      ensures !StartsWith(m, v)
    {
      assert m[..|v|][0] == 'i' != v[0];
    }
  }
}

=== FILE: story_viewer.dfy ===
/** The full-screen story player: a current index, a pause flag and a progress
    percentage (0 to 100), driven by animation-frame ticks for images, by the
    video element's `timeupdate`/`ended` notifications for videos, and by taps,
    presses and buttons. Calling `setViewStory(null)` is the `Closed` outcome.

    The browser is abstracted as an event stream: a requestAnimationFrame
    callback is a `Tick` carrying its timestamp, and the video element only
    reports its position and its end. Each React state update and the effects
    it triggers are collapsed into one transition to the settled state. */
module StoryViewer {

  /** Display time of an image whose `duration` is missing or zero. */
  const DefaultDuration: nat := 5000

  datatype Kind = Image | Video

  /** One story item. `duration` is the image display time in milliseconds;
      0 stands for every falsy value of the field (absent, 0, NaN). */
  datatype Story = Story(kind: Kind, duration: nat)

  /** The requestAnimationFrame loop of the image ramp. */
  datatype Clock =
    | Stopped
      /** A frame is scheduled. `start` is the timestamp of the run's first
          frame; 0.0 means "not yet recorded", exactly like the falsy
          `startTime` of the source, which also treats a recorded 0 as unset. */
    | Running(start: real)

  datatype Viewer =
      /** Mounted with no story: renders nothing and schedules nothing. */
    | Empty
    | Open(index: nat, progress: real, paused: bool, clock: Clock)
    | Closed

  datatype Event =
    | Tick(timestamp: real)                        // an animation frame fires
    | TimeUpdate(currentTime: real, duration: real) // video position; duration 0.0 = falsy (NaN, 0)
    | Ended                                        // the video finished
    | Tap(x: real, width: real)                    // click at x within a surface of this width
    | PressStart                                   // mouse down / touch start
    | PressEnd                                     // mouse up / touch end
    | Next                                         // right arrow button
    | Previous                                     // left arrow button
    | Close                                        // the close button

  /** `stories[i] || {}`: an index past the end reads an empty object, which is
      not a video and has no duration. */
  function StoryAt(stories: seq<Story>, i: nat): (s: Story)
    ensures i < |stories| ==> s == stories[i]
    ensures i >= |stories| ==> s.kind == Image && EffectiveDuration(s) == DefaultDuration
  {
    if i < |stories| then stories[i] else Story(Image, 0)
  }

  /** `story.duration || 5000`: always a positive number of milliseconds. */
  function EffectiveDuration(s: Story): (d: nat)
    ensures d > 0
    ensures s.duration > 0 ==> d == s.duration
    ensures s.duration == 0 ==> d == DefaultDuration
  {
    if s.duration == 0 then DefaultDuration else s.duration
  }

  /** The state once the index has become `i`: the reset effect zeroes the
      progress and clears the pause flag, and the animation effect schedules a
      fresh first frame whose start time is not yet recorded. */
  function Enter(i: nat): Viewer
  {
    Open(i, 0.0, false, Running(0.0))
  }

  /** Mounting the viewer on a story list. */
  function Start(stories: seq<Story>): (v: Viewer)
    ensures v.Empty? <==> |stories| == 0
    ensures v.Open? ==> v.index == 0 && v.progress == 0.0 && !v.paused && v.clock.Running?
    ensures |stories| > 0 ==> v == Enter(0)
    ensures !v.Closed?
  {
    if |stories| == 0 then Empty else Enter(0)
  }

  /** `goToNext`: the next item, or close after the last one. */
  function GoToNext(stories: seq<Story>, v: Viewer): (r: Viewer)
    ensures !v.Open? ==> r == v
    ensures v.Open? ==> (r.Closed? <==> v.index + 1 >= |stories|)
    ensures v.Open? && r.Open? ==> r.index == v.index + 1 && r.progress == 0.0 && !r.paused
    ensures v.Open? && v.index + 1 < |stories| ==> r == Enter(v.index + 1)
  {
    match v
    case Open(i, _, _, _) => if i < |stories| - 1 then Enter(i + 1) else Closed
    case _ => v
  }

  /** `goToPrevious`: the previous item; on the first item nothing happens. */
  function GoToPrevious(v: Viewer): (r: Viewer)
    ensures !v.Open? ==> r == v
    ensures !r.Closed? || v.Closed?
    ensures v.Open? && v.index == 0 ==> r == v
    ensures v.Open? && v.index > 0 ==> r.Open? && r.index == v.index - 1 && r.progress == 0.0 && !r.paused
    ensures v.Open? && v.index > 0 ==> r == Enter(v.index - 1)
  {
    match v
    case Open(i, _, _, _) => if i > 0 then Enter(i - 1) else v
    case _ => v
  }

  /** `Math.min((elapsed / duration) * 100, 100)`. */
  function ImageProgress(elapsed: real, duration: nat): (p: real)
    requires duration > 0
    ensures p <= 100.0
    ensures elapsed >= 0.0 ==> p >= 0.0
    ensures p == 100.0 <==> elapsed >= duration as real
    ensures elapsed < duration as real ==> p == elapsed / duration as real * 100.0
  {
    var raw := elapsed / duration as real * 100.0;
    if raw < 100.0 then raw else 100.0
  }

  /** The image ramp never runs backwards as time moves forward. */
  lemma ImageProgressMonotone(e1: real, e2: real, duration: nat)
    requires duration > 0
    requires e1 <= e2
    ensures ImageProgress(e1, duration) <= ImageProgress(e2, duration)
  {
    var d := duration as real;
    assert e1 / d <= e2 / d by {
      assert e2 / d - e1 / d == (e2 - e1) / d;
    }
  }

  /** The start of the current run of frames once the frame at `t` has fired:
      the first frame records its own timestamp. */
  function RunStart(c: Clock, t: real): (start: real)
    requires c.Running?
    ensures c.start != 0.0 ==> start == c.start
    ensures c.start == 0.0 ==> start == t
  {
    if c.start == 0.0 then t else c.start
  }

  /** `animate(timestamp)`. The first frame of a run records its timestamp;
      on a video the callback stops without rescheduling; on an image the
      progress is recomputed and either another frame is scheduled or, at 100,
      `goToNext` is called and the loop ends. Without a pending frame nothing
      fires. */
  function OnTick(stories: seq<Story>, v: Viewer, t: real): (r: Viewer)
    ensures !(v.Open? && v.clock.Running?) ==> r == v
    ensures v.Open? && v.clock.Running? && StoryAt(stories, v.index).kind == Video ==> r == v.(clock := Stopped)
    ensures v.Open? && v.clock.Running? && StoryAt(stories, v.index).kind == Image ==>
      var start := RunStart(v.clock, t);
      var d := EffectiveDuration(StoryAt(stories, v.index)) as real;
      && (t - start < d ==> r == Open(v.index, (t - start) / d * 100.0, v.paused, Running(start)))
      && (t - start >= d ==> r == GoToNext(stories, v))
  {
    match v
    case Open(i, p, paused, Running(s)) =>
      var start := RunStart(v.clock, t);
      var story := StoryAt(stories, i);
      if story.kind == Video then
        Open(i, p, paused, Stopped)
      else
        var prog := ImageProgress(t - start, EffectiveDuration(story));
        if prog < 100.0 then Open(i, prog, paused, Running(start))
        else GoToNext(stories, Open(i, prog, paused, Running(start)))
    case _ => v
  }

  /** `handleTimeUpdate`: on a video, progress follows the playback position,
      but only once the duration is known (truthy). */
  function OnTimeUpdate(stories: seq<Story>, v: Viewer, currentTime: real, duration: real): (r: Viewer)
    ensures !(v.Open? && StoryAt(stories, v.index).kind == Video) || duration == 0.0 ==> r == v
    ensures v.Open? && StoryAt(stories, v.index).kind == Video && duration != 0.0 ==>
      && r.Open? && r.progress * duration == currentTime * 100.0
      && r.index == v.index && r.paused == v.paused && r.clock == v.clock
  {
    if v.Open? && StoryAt(stories, v.index).kind == Video && duration != 0.0 then
      v.(progress := currentTime / duration * 100.0)
    else
      v
  }

  /** `handleTap`: the left half goes back, the right half (its left edge
      included) goes forward. */
  function OnTap(stories: seq<Story>, v: Viewer, x: real, width: real): (r: Viewer)
    ensures !v.Open? ==> r == v
    ensures v.Open? && x < width / 2.0 ==> r == (if v.index > 0 then Enter(v.index - 1) else v)
    ensures v.Open? && x >= width / 2.0 ==> (r.Closed? <==> v.index + 1 >= |stories|)
    ensures v.Open? && x >= width / 2.0 && r.Open? ==> r == Enter(v.index + 1)
    ensures v.Open? && x >= width / 2.0 && v.index + 1 < |stories| ==> r == Enter(v.index + 1)
  {
    if !v.Open? then v
    else if x < width / 2.0 then GoToPrevious(v)
    else GoToNext(stories, v)
  }

  /** `handlePauseStart`: setting the flag cancels the pending frame; setting
      it when already set changes nothing. */
  function OnPressStart(v: Viewer): (r: Viewer)
    ensures !v.Open? || v.paused ==> r == v
    ensures v.Open? && !v.paused ==> r == Open(v.index, v.progress, true, Stopped)
  {
    if v.Open? && !v.paused then v.(paused := true, clock := Stopped) else v
  }

  /** `handlePauseEnd`: clearing the flag re-runs the animation effect, which
      schedules a fresh frame with an unrecorded start time. */
  function OnPressEnd(v: Viewer): (r: Viewer)
    ensures !v.Open? || !v.paused ==> r == v
    ensures v.Open? && v.paused ==> r == Open(v.index, v.progress, false, Running(0.0))
  {
    if v.Open? && v.paused then v.(paused := false, clock := Running(0.0)) else v
  }

  /** One event applied to the viewer. A closed or empty viewer has no
      listeners left, so every event leaves it as it is. */
  function Step(stories: seq<Story>, v: Viewer, e: Event): (r: Viewer)
    ensures !v.Open? ==> r == v
    ensures v.Open? && e.Close? ==> r.Closed?
    ensures v.Open? && r.Closed? ==> e.Close? || v.index + 1 >= |stories|
    ensures v.Open? ==> !r.Empty?
    ensures v.Open? && r.Open? ==> r.index + 1 >= v.index && r.index <= v.index + 1
    ensures v.Open? && r.Open? && r.index != v.index ==> r == Enter(r.index)
  {
    if !v.Open? then v
    else
      match e
      case Tick(t) => OnTick(stories, v, t)
      case TimeUpdate(c, d) => OnTimeUpdate(stories, v, c, d)
      case Ended => if StoryAt(stories, v.index).kind == Video then GoToNext(stories, v) else v
      case Tap(x, w) => OnTap(stories, v, x, w)
      case PressStart => OnPressStart(v)
      case PressEnd => OnPressEnd(v)
      case Next => GoToNext(stories, v)
      case Previous => GoToPrevious(v)
      case Close => Closed
  }

  /** Which handler each event reaches on an open viewer: frames go to
      `animate`, the video's notifications to its listeners (`ended` only while
      a video is shown), a click on the backdrop to `handleTap`, mouse and touch
      holds to the pause handlers, the arrows to `goToNext` and `goToPrevious`,
      and the close button closes. */
  lemma StepHandlers(stories: seq<Story>, v: Viewer)
    requires v.Open?
    ensures forall t :: Step(stories, v, Tick(t)) == OnTick(stories, v, t)
    ensures forall c, d :: Step(stories, v, TimeUpdate(c, d)) == OnTimeUpdate(stories, v, c, d)
    ensures StoryAt(stories, v.index).kind == Video ==> Step(stories, v, Ended) == GoToNext(stories, v)
    ensures StoryAt(stories, v.index).kind == Image ==> Step(stories, v, Ended) == v
    ensures forall x, w :: Step(stories, v, Tap(x, w)) == OnTap(stories, v, x, w)
    ensures Step(stories, v, PressStart) == OnPressStart(v)
    ensures Step(stories, v, PressEnd) == OnPressEnd(v)
    ensures Step(stories, v, Next) == GoToNext(stories, v)
    ensures Step(stories, v, Previous) == GoToPrevious(v)
    ensures Step(stories, v, Close) == Closed
  {
  }

  /** A sequence of events applied in order. */
  function Run(stories: seq<Story>, v: Viewer, es: seq<Event>): Viewer
    decreases |es|
  {
    if |es| == 0 then v else Run(stories, Step(stories, v, es[0]), es[1..])
  }

  /** The shape every reachable state has: an open viewer points at an
      existing story, a paused viewer has no frame pending, and an unpaused
      viewer on an image always has a frame pending. */
  ghost predicate WellFormed(stories: seq<Story>, v: Viewer)
  {
    match v
    case Empty => |stories| == 0
    case Closed => true
    case Open(i, _, paused, clock) =>
      && i < |stories|
      && (paused ==> clock == Stopped)
      && (!paused && stories[i].kind == Image ==> clock.Running?)
  }

  /** Opening yields a well-formed state; with no story it is `Empty`, which
      no event ever leaves, so nothing is ever scheduled. */
  lemma StartWellFormed(stories: seq<Story>, es: seq<Event>)
    ensures WellFormed(stories, Start(stories))
    ensures |stories| == 0 ==> Run(stories, Start(stories), es) == Empty
  {
  }

  /** Every event keeps the viewer well-formed: in particular the index stays
      in bounds while the viewer is open. */
  lemma StepWellFormed(stories: seq<Story>, v: Viewer, e: Event)
    requires WellFormed(stories, v)
    ensures WellFormed(stories, Step(stories, v, e))
  {
  }

  /** Any run of events from a well-formed state stays well-formed. */
  lemma {:induction false} RunWellFormed(stories: seq<Story>, v: Viewer, es: seq<Event>)
    requires WellFormed(stories, v)
    ensures WellFormed(stories, Run(stories, v, es))
    decreases |es|
  {
    if |es| > 0 {
      StepWellFormed(stories, v, es[0]);
      RunWellFormed(stories, Step(stories, v, es[0]), es[1..]);
    }
  }

  /** `Closed` and `Empty` are terminal: no run of events leaves them. */
  lemma {:induction false} RunFixesInactive(stories: seq<Story>, v: Viewer, es: seq<Event>)
    requires !v.Open?
    ensures Run(stories, v, es) == v
    decreases |es|
  {
    if |es| > 0 {
      RunFixesInactive(stories, v, es[1..]);
    }
  }

  /** Whenever an event changes the index, the progress is 0, the pause flag
      is clear and a fresh frame is pending. */
  lemma ResetOnIndexChange(stories: seq<Story>, v: Viewer, e: Event)
    requires v.Open?
    requires Step(stories, v, e).Open? && Step(stories, v, e).index != v.index
    ensures Step(stories, v, e) == Enter(Step(stories, v, e).index)
  {
  }

  /** The viewer closes only through the close button or from the last story. */
  lemma ClosesOnlyAtEnd(stories: seq<Story>, v: Viewer, e: Event)
    requires WellFormed(stories, v) && v.Open?
    requires Step(stories, v, e).Closed?
    ensures e.Close? || v.index == |stories| - 1
  {
  }

  /** Going back never closes the viewer, by button or by a tap on the left
      half; a tap on the right half, including exactly the middle, advances. */
  lemma TapZones(stories: seq<Story>, v: Viewer, x: real, width: real)
    requires v.Open?
    ensures x < width / 2.0 ==> Step(stories, v, Tap(x, width)) == Step(stories, v, Previous)
    ensures x >= width / 2.0 ==> Step(stories, v, Tap(x, width)) == Step(stories, v, Next)
    ensures !Step(stories, v, Previous).Closed?
  {
  }

  /** The events a real browser can deliver in state `v`: frame timestamps
      never precede the recorded start of the run, and a video's position lies
      within its (known) duration. */
  ghost predicate Plausible(v: Viewer, e: Event)
  {
    match e
    case Tick(t) => v.Open? && v.clock.Running? && v.clock.start != 0.0 ==> t >= v.clock.start
    case TimeUpdate(c, d) => d == 0.0 || (d > 0.0 && 0.0 <= c <= d)
    case _ => true
  }

  /** The progress percentage of an open viewer lies in [0, 100]. */
  ghost predicate ProgressInRange(v: Viewer)
  {
    v.Open? ==> 0.0 <= v.progress <= 100.0
  }

  /** Plausible events keep the progress within [0, 100]; a missing video
      duration leaves it untouched rather than dividing by zero. */
  lemma StepProgressInRange(stories: seq<Story>, v: Viewer, e: Event)
    requires ProgressInRange(v) && Plausible(v, e)
    ensures ProgressInRange(Step(stories, v, e))
  {
    if v.Open? {
      match e
      case Tick(t) =>
        if v.clock.Running? && StoryAt(stories, v.index).kind == Image {
          var start := RunStart(v.clock, t);
          var d := EffectiveDuration(StoryAt(stories, v.index));
          assert t - start >= 0.0;
          assert 0.0 <= ImageProgress(t - start, d) <= 100.0;
        }
      case TimeUpdate(c, d) =>
        if d != 0.0 {
          assert 0.0 <= c / d <= 1.0;
        }
      case _ =>
    }
  }

  /** Within one run of frames, a later frame never shows less progress than
      an earlier one, as long as the viewer stays on the same item. */
  lemma TicksNonDecreasing(stories: seq<Story>, v: Viewer, t1: real, t2: real)
    requires WellFormed(stories, v) && v.Open? && v.clock.Running?
    requires t1 <= t2
    requires Step(stories, v, Tick(t1)).Open? && Step(stories, v, Tick(t1)).index == v.index
    requires Step(stories, Step(stories, v, Tick(t1)), Tick(t2)).Open?
    requires Step(stories, Step(stories, v, Tick(t1)), Tick(t2)).index == v.index
    ensures Step(stories, Step(stories, v, Tick(t1)), Tick(t2)).progress
         >= Step(stories, v, Tick(t1)).progress
  {
    var w := Step(stories, v, Tick(t1));
    var story := stories[v.index];
    if story.kind == Image {
      var d := EffectiveDuration(story);
      var s := v.clock.start;
      var start := if s == 0.0 then t1 else s;
      assert w == Open(v.index, ImageProgress(t1 - start, d), v.paused, Running(start));
      if start != 0.0 {
        ImageProgressMonotone(t1 - start, t2 - start, d);
      }
    }
  }

  /** While paused on an image, frames, video notifications and further
      presses change nothing: the progress is held. */
  lemma PausedImageHolds(stories: seq<Story>, v: Viewer, e: Event)
    requires WellFormed(stories, v) && v.Open? && v.paused
    requires stories[v.index].kind == Image
    requires e.Tick? || e.TimeUpdate? || e.Ended? || e.PressStart?
    ensures Step(stories, v, e) == v
  {
  }

  /** Releasing a hold on an image restarts its elapsed time: the first frame
      after the release shows progress 0, whatever was shown while held. */
  lemma ResumeRestartsRamp(stories: seq<Story>, v: Viewer, t: real)
    requires WellFormed(stories, v) && v.Open? && v.paused
    requires stories[v.index].kind == Image
    ensures Step(stories, Step(stories, v, PressEnd), Tick(t))
         == Open(v.index, 0.0, false, Running(t))
  {
  }

  /** A video item: progress follows the position when the duration is
      known and holds otherwise; only `ended` moves on. */
  lemma VideoProgress(stories: seq<Story>, v: Viewer, c: real, d: real)
    requires WellFormed(stories, v) && v.Open?
    requires stories[v.index].kind == Video
    ensures d == 0.0 ==> Step(stories, v, TimeUpdate(c, d)) == v
    ensures d != 0.0 ==> Step(stories, v, TimeUpdate(c, d)).progress * d == c * 100.0
    ensures Step(stories, v, TimeUpdate(c, d)).index == v.index
    ensures Step(stories, v, Ended) == GoToNext(stories, v)
  {
  }

  /** The width, in percent, of progress bar `idx`. */
  function BarFill(idx: nat, current: nat, progress: real): real
  {
    if idx < current then 100.0 else if idx == current then progress else 0.0
  }

  /** The bar widths for all `n` stories. With the progress within [0, 100]
      every bar is within [0, 100], the bars never grow from left to right,
      and exactly the bars before the current one are full (plus the current
      one at 100). */
  function Bars(n: nat, current: nat, progress: real): (bars: seq<real>)
    requires 0.0 <= progress <= 100.0
    ensures |bars| == n
    ensures current < n ==> bars[current] == progress
    ensures forall i :: 0 <= i < n ==> 0.0 <= bars[i] <= 100.0
    ensures forall i, j :: 0 <= i <= j < n ==> bars[i] >= bars[j]
    ensures forall i :: 0 <= i < n ==> (bars[i] == 100.0 <==> i < current || (i == current && progress == 100.0))
    ensures forall i :: 0 <= i < n ==> (bars[i] == 0.0 <==> i > current || (i == current && progress == 0.0))
  {
    seq(n, i requires 0 <= i => BarFill(i, current, progress))
  }

  /** Right after an index change the bars show exactly the earlier stories
      as watched and nothing else. */
  lemma BarsAfterIndexChange(n: nat, i: nat)
    requires i < n
    ensures Bars(n, Enter(i).index, Enter(i).progress) == seq(n, k requires 0 <= k => if k < i then 100.0 else 0.0)
  {
  }

  /** The frame loop of an image, for every frame of a playing item: below 100
      the new progress is the elapsed share of the duration and another frame
      is scheduled on the same run; at 100 the viewer moves to the next item,
      or closes after the last one. */
  lemma FrameSchedule(stories: seq<Story>, v: Viewer, t: real)
    requires WellFormed(stories, v) && v.Open? && !v.paused
    requires stories[v.index].kind == Image
    ensures v.clock.Running?
    ensures var start := RunStart(v.clock, t);
      var d := EffectiveDuration(stories[v.index]) as real;
      && (t - start < d ==> Step(stories, v, Tick(t)) == Open(v.index, (t - start) / d * 100.0, false, Running(start)))
      && (t - start >= d ==> Step(stories, v, Tick(t)) == GoToNext(stories, v))
  {
  }

  /** Three images of 5000 ms, watched without interaction: the viewer
      visits items 0, 1 and 2, each from progress 0, and then closes. */
  lemma ThreeImagesPlayThrough()
    ensures var stories := [Story(Image, 5000), Story(Image, 5000), Story(Image, 5000)];
      && Run(stories, Start(stories), [Tick(1.0), Tick(2501.0)]) == Open(0, 50.0, false, Running(1.0))
      && Run(stories, Start(stories), [Tick(1.0), Tick(5001.0)]) == Enter(1)
      && Run(stories, Enter(1), [Tick(6000.0), Tick(11000.0)]) == Enter(2)
      && Run(stories, Enter(2), [Tick(12000.0), Tick(17000.0)]) == Closed
  {
  }

  /** A single 10 s video: progress reaches 100 at the end of playback, and
      the `ended` notification closes the viewer. */
  lemma SingleVideoCloses()
    ensures var stories := [Story(Video, 0)];
      && Run(stories, Start(stories), [Tick(1.0)]) == Open(0, 0.0, false, Stopped)
      && Run(stories, Start(stories), [Tick(1.0), TimeUpdate(5.0, 0.0)]) == Open(0, 0.0, false, Stopped)
      && Run(stories, Start(stories), [Tick(1.0), TimeUpdate(10.0, 10.0)]) == Open(0, 100.0, false, Stopped)
      && Run(stories, Start(stories), [Tick(1.0), TimeUpdate(10.0, 10.0), Ended]) == Closed
  {
  }

  /** Held on item 1 of 3, then going back: item 0 is shown from progress 0
      and the pause flag is cleared by the index change. */
  lemma RewindWhilePaused()
    ensures var stories := [Story(Image, 0), Story(Image, 0), Story(Image, 0)];
      Run(stories, Enter(1), [Tick(1.0), Tick(2001.0), PressStart, Previous]) == Enter(0)
  {
  }
}
